=== FILE: README.md ===
# AlsoUpdater reconcile core, in Dafny

AlsoUpdater is a mod-pack updater. It loads `config.json`, fetches `manifest.json`
from a MinIO bucket through a presigned URL, and walks the manifest's `files` array.
Each entry is a path, a size and an etag. An entry is kept when the file under the
download directory exists, has that size, and its MD5 in hex equals the etag ignoring
case. Otherwise the object `files/<path with forward slashes>` is fetched over it.
The first failure ends the run.

This project models that core with the I/O abstracted away:

- the download directory is a map from the manifest path, as written, to file contents (`Reconciler.Dir`);
- the bucket is a map from object key to the body a successful GET returns (`Reconciler.Store`); a key it lacks is a GET that did not succeed;
- MD5 is a function parameter from contents to a 16-byte digest (`Reconciler.Md5`);
- `config.json` is an optional string map (`Settings.ConfigDoc`);
- the manifest is an already-parsed optional list of entries (`Updater.Manifest`).

Modules: `Wrappers` (Option, Result), `JavaText` (`String.equalsIgnoreCase`),
`DigestHex` (the `%02x` rendering of the digest in `calcMd5`), `ObjectKeys` (the
object key of a path), `Settings` (`loadConfig`), `Reconciler` (the per-entry check
and the loop of `main`) and `Updater` (`main` as one run).

Behaviour the model follows from the code:

- An existing file is always hashed, and the hash is taken before the size is compared. Nothing short-circuits on a size mismatch (`Reconciler.CheckLocal`).
- The local file is `new File(download_dir, path)` with the path used as written. Only the object key has its backslashes replaced. So on a POSIX system, where `\` is not a separator, `a\b` and `a/b` are two local files that are fetched from one object. On Windows they are one file; see "## Left out".
- The template written when `config.json` is absent has only non-empty values. A second run with the unedited template therefore passes validation (`Settings.TemplateIsAccepted`); it fails later, at the bucket.
- A fetched file is not checked again against the entry's size or etag.
- The run ends at the first failed fetch. The log then ends with that entry's `Downloading` line, because the line is printed after the URL is minted and before the transfer.
- The code sets no distinct exit status on failure. `Updater.Run` reports the outcome as a value.

## Model

| member | source | states |
|---|---|---|
| `JavaText.CharsEqualIgnoreCaseIff` | src/main/java/com/alsojiangshi/updater/AlsoUpdater.java:85 | one position of the case-insensitive comparison matches exactly when the two lower-case forms are equal |
| `JavaText.EqualsIgnoreCase` | src/main/java/com/alsojiangshi/updater/AlsoUpdater.java:85 | `equalsIgnoreCase` holds exactly when the strings have the same length and agree position by position once lower-cased |
| `JavaText.EqualsIgnoreCaseIff` | src/main/java/com/alsojiangshi/updater/AlsoUpdater.java:85 | `equalsIgnoreCase` holds exactly when the two strings have equal lower-case forms |
| `JavaText.EqualsIgnoreCaseIsEquivalence` | src/main/java/com/alsojiangshi/updater/AlsoUpdater.java:85 | the etag comparison is reflexive, symmetric and transitive |
| `JavaText.UpperCaseEqualsIgnoreCase` | src/main/java/com/alsojiangshi/updater/AlsoUpdater.java:85 | every string matches its upper-case form |
| `DigestHex.Unsigned` | src/main/java/com/alsojiangshi/updater/AlsoUpdater.java:174 | `%02x` formats a signed byte as its value modulo 256, below 256 |
| `DigestHex.HexDigit` | src/main/java/com/alsojiangshi/updater/AlsoUpdater.java:174 | a nibble is rendered as a lower-case hex digit |
| `DigestHex.ByteHex` | src/main/java/com/alsojiangshi/updater/AlsoUpdater.java:174 | `%02x` gives two digits that read back as the high and the low nibble of the byte |
| `DigestHex.Hex` | src/main/java/com/alsojiangshi/updater/AlsoUpdater.java:171-176 | the rendering of an n-byte digest has length 2n and only characters in `[0-9a-f]` |
| `DigestHex.FormatDigest` | src/main/java/com/alsojiangshi/updater/AlsoUpdater.java:171-176 | the loop appending each byte's `%02x` to the builder returns `Hex(digest)` |
| `DigestHex.HexAt` | src/main/java/com/alsojiangshi/updater/AlsoUpdater.java:173-175 | byte i is rendered at positions 2i and 2i+1, high nibble first |
| `DigestHex.UnhexHex` | src/main/java/com/alsojiangshi/updater/AlsoUpdater.java:171-176 | decoding the rendering gives back the digest |
| `DigestHex.HexUnhex` | src/main/java/com/alsojiangshi/updater/AlsoUpdater.java:171-176 | any string the decoder accepts is the rendering of what it returns |
| `DigestHex.HexInjective` | src/main/java/com/alsojiangshi/updater/AlsoUpdater.java:171-176 | two digests with the same rendering are equal |
| `DigestHex.HexEqualsIgnoreCaseIff` | src/main/java/com/alsojiangshi/updater/AlsoUpdater.java:82-85 | a computed digest matches an etag ignoring case exactly when the etag in lower case is the digest's rendering |
| `ObjectKeys.Slashed` | src/main/java/com/alsojiangshi/updater/AlsoUpdater.java:95 | `replace("\\", "/")` keeps the length and turns every backslash into a slash, leaving other characters in place |
| `ObjectKeys.ObjectKey` | src/main/java/com/alsojiangshi/updater/AlsoUpdater.java:95 | the object key starts with `files/`, is six characters longer than the path and contains no backslash |
| `ObjectKeys.SameKeyIff` | src/main/java/com/alsojiangshi/updater/AlsoUpdater.java:95 | two paths share a key exactly when they differ only in `\` versus `/` |
| `ObjectKeys.SlashedIdempotent` | src/main/java/com/alsojiangshi/updater/AlsoUpdater.java:95 | normalising a path twice is normalising it once |
| `ObjectKeys.KeyOfSlashOnlyPath` | src/main/java/com/alsojiangshi/updater/AlsoUpdater.java:95 | a path without backslashes gets the key `files/` + path |
| `Settings.Template` | src/main/java/com/alsojiangshi/updater/AlsoUpdater.java:124-131 | the document written for a missing `config.json` has all six keys the loader reads, each with a non-empty value |
| `Settings.HasAllKeysIff` | src/main/java/com/alsojiangshi/updater/AlsoUpdater.java:145-150 | the six keys the acceptance condition names are exactly the keys the loader reads |
| `Settings.FirstAbsent` | src/main/java/com/alsojiangshi/updater/AlsoUpdater.java:145-150 | finds the first key, in the loader's reading order, that the document lacks; every earlier key is present |
| `Settings.LoadConfig` | src/main/java/com/alsojiangshi/updater/AlsoUpdater.java:120-153 | an absent file fails with ConfigMissing; loading succeeds exactly when all six keys are present and endpoint, access_key, secret_key and bucket are non-empty; every field is copied unchanged |
| `Settings.ConfigFileAfterLoad` | src/main/java/com/alsojiangshi/updater/AlsoUpdater.java:124-137 | an existing `config.json` is left as it was; an absent one is replaced by a document holding all six keys with non-empty values |
| `Settings.OptionalValuesMayBeEmpty` | src/main/java/com/alsojiangshi/updater/AlsoUpdater.java:152 | emptying region and download_dir of an accepted config keeps it accepted |
| `Settings.TemplateIsAccepted` | src/main/java/com/alsojiangshi/updater/AlsoUpdater.java:124-153 | the template written for a missing `config.json` passes validation on the next run |
| `Reconciler.UpToDate` | src/main/java/com/alsojiangshi/updater/AlsoUpdater.java:80-88 | an entry counts as up to date only when its file exists with the expected size and its etag is 32 characters long, the length of an MD5 rendering |
| `Reconciler.Reconciled` | src/main/java/com/alsojiangshi/updater/AlsoUpdater.java:69-109 | the loop's effect entry by entry: a non-empty manifest records between one line and one line per entry; a failure names a key the bucket does not serve; a run without failure records one line per entry |
| `Reconciler.CheckLocal` | src/main/java/com/alsojiangshi/updater/AlsoUpdater.java:77-89 | `needDownload` ends false exactly when the file exists, has the expected size and its MD5 hex equals the etag ignoring case |
| `Reconciler.Reconcile` | src/main/java/com/alsojiangshi/updater/AlsoUpdater.java:69-109 | the loop's final directory, printed lines and failure are those of `Reconciled`, the entry-by-entry specification |
| `Reconciler.KeptStep` | src/main/java/com/alsojiangshi/updater/AlsoUpdater.java:80-88 | an up-to-date entry prints one "already present" line, mints no URL and fetches nothing; the rest of the loop runs on the same directory |
| `Reconciler.FetchedStep` | src/main/java/com/alsojiangshi/updater/AlsoUpdater.java:92-107 | a stale entry whose object is served records one `Downloading` line with the entry's path and the object key it is fetched from (standing for the URL minted for that key), and overwrites its path with that object before the rest of the loop |
| `Reconciler.FailedStep` | src/main/java/com/alsojiangshi/updater/AlsoUpdater.java:92-116 | a stale entry whose object is not served records its `Downloading` line and ends the loop with the directory unchanged and that key as the failure |
| `Reconciler.UpToDateIff` | src/main/java/com/alsojiangshi/updater/AlsoUpdater.java:80-88 | an entry is kept exactly when its file exists, has the expected size and the lower-cased etag is the hex MD5 of its contents |
| `Reconciler.UpperCaseEtagIsUpToDate` | src/main/java/com/alsojiangshi/updater/AlsoUpdater.java:85 | an upper-case etag still matches the lower-case digest computed locally |
| `Reconciler.MissingFileIsFetched` | src/main/java/com/alsojiangshi/updater/AlsoUpdater.java:77-92 | an entry of any manifest whose file is missing when the loop reaches it gets a `Downloading` line for its object key, whatever its size and etag and whatever follows it |
| `Reconciler.LogLine` | src/main/java/com/alsojiangshi/updater/AlsoUpdater.java:69-109 | line j of the log is for entry j: its path, its object key when fetched, a served key unless it is the last line of a failed run, which carries the failed key |
| `Reconciler.LogFollowsManifest` | src/main/java/com/alsojiangshi/updater/AlsoUpdater.java:69-109 | lines follow the manifest in order, one per processed entry, with fetch keys equal to the entries' object keys; either every entry is processed and every fetch was served, or the last line is the fetch whose object is not served and every earlier fetch was served |
| `Reconciler.ReconciledEffect` | src/main/java/com/alsojiangshi/updater/AlsoUpdater.java:92-107 | afterwards each path fetched successfully holds its bucket object, and every other file is unchanged; paths of entries after a failure are not written |
| `Reconciler.AllUpToDateKeepsAll` | src/main/java/com/alsojiangshi/updater/AlsoUpdater.java:80-88 | when every entry is up to date, the run keeps them all, fetches nothing and leaves the directory unchanged |
| `Reconciler.UpToDatePersists` | src/main/java/com/alsojiangshi/updater/AlsoUpdater.java:92-107 | an up-to-date entry whose object matches it stays up to date through any later entries |
| `Reconciler.PublishedManifestSyncs` | src/main/java/com/alsojiangshi/updater/AlsoUpdater.java:69-109 | when the bucket serves a matching object for every entry, the run completes and leaves every entry up to date |
| `Reconciler.RerunKeepsEverything` | src/main/java/com/alsojiangshi/updater/AlsoUpdater.java:69-109 | a second run against the first run's result keeps every entry and changes nothing |
| `Reconciler.EmptyManifestChangesNothing` | src/main/java/com/alsojiangshi/updater/AlsoUpdater.java:63-69 | an empty `files` array prints nothing and leaves the directory unchanged |
| `Updater.Run` | src/main/java/com/alsojiangshi/updater/AlsoUpdater.java:29-117 | a config failure, an unavailable manifest or a manifest without `files` end the run before any file is touched; otherwise the run's directory, lines and outcome are those of the reconcile loop; an absent `config.json` is replaced by the template |

## Left out

- MinIO client construction and presigned-URL minting: a foreign library. Minting is assumed not to fail. A `Downloading` line records the object key the URL is minted for, in place of the URL.
- The console text itself: the `[下载]` line prints the manifest path and the local file's path (`localFile.getPath()`); the model records the path and the object key instead, and does not model the printed local path.
- The HTTP GETs in `downloadString` and `downloadFile`: network I/O. A fetch either returns the bucket's object or fails. A key absent from the bucket map stands for a non-success status or a transport error that hits every fetch of that key during the run.
- The bucket is a snapshot with one outcome per key per run. Two entries that share a key, where one fetch succeeds and the other fails transiently, and a bucket that changes during the run, cannot be represented.
- A transfer that fails after the destination was opened leaves a truncated file in the source. The model keeps the file unchanged on failure.
- Gson parsing of `manifest.json` and `config.json`, and the template write as JSON: a foreign library and file I/O. The manifest is taken parsed or unavailable, and the configuration as a map of strings.
- Reconciler.FetchedStep: a served object is always written. In the source the write at `AlsoUpdater.java:202` (`new FileOutputStream(destination)`) can still throw after a successful GET, for instance when the file is read-only or a parent on its path is a regular file, and that ends the run. The flat directory map lets `a` and `a/b` both hold contents, so a manifest `[a, a/b]` with both objects served is fully written by the model, while the source writes `a` and then fails on `a/b`. `Reconciler.Reconciled`, `Reconciler.LogFollowsManifest` ("a failure names a key the bucket does not serve") and `Reconciler.ReconciledEffect` ("each path fetched successfully holds its object") therefore hold only when every write succeeds.
- Reconciler.PublishedManifestSyncs: "the run completes" assumes every write at `AlsoUpdater.java:202` succeeds; a manifest whose paths clash as file and directory (`a` and `a/b`), or a destination that cannot be opened, ends the source's run with an exception even when the bucket publishes every entry. The same holds for `Reconciler.RerunKeepsEverything`.
- Manifest entries with a missing or mistyped `path`, `size` or `etag`: in the source these throw mid-loop and end the run. The model takes every entry well formed.
- The MD5 algorithm and its chunked read loop: a library primitive. It is the `md5` parameter. Failure to read a file or to obtain the algorithm is not modelled.
- Parent directory creation, console text beyond the two per-entry lines, and the stack-trace handler: side effects with nothing stateable beyond "the run ends".
- How `java.io.File` resolves the download directory and the path (duplicate separators, absolute paths, a path naming a directory): the directory map is keyed by the manifest path as written. For `\` this matches POSIX, where `\` is an ordinary character. On POSIX too, `new File(download_dir, path)` at `AlsoUpdater.java:76` folds repeated and trailing slashes (`a//b` and `a/` are `a/b` and `a`), and the system resolves `.` and `..` (`./a` is `a`); so two manifest paths can name one file, which the map holds under two keys, and a path with `..` is written outside the download directory. For such manifests `Reconciler.ReconciledEffect`'s "every other file is left as it was" and the "stays up to date" of `Reconciler.UpToDatePersists` and `Reconciler.PublishedManifestSyncs` do not carry over: a fetch under one spelling changes the file the other spelling names. On Windows `a\b` and `a/b` name one file, so the map holds two keys for it, and `Reconciler.ReconciledEffect`'s "every other file is left as it was" does not carry over: a fetch of one alias changes the other. An empty `download_dir`, which `Settings.OptionalValuesMayBeEmpty` shows is accepted, makes `new File("", path)` resolve against the system default directory (`/` on Unix), so files are written under the filesystem root; the model does not distinguish this.
- JavaText.EqualsIgnoreCaseIff: case mapping covers the ASCII letters only. Java's `Character.toUpperCase`/`toLowerCase` also map other scripts, and there the general statements of `JavaText` do not hold for Java: `"ı".equalsIgnoreCase("I")` is true, yet the lower-case forms `"ı"` and `"i"` differ. For the comparison at `AlsoUpdater.java:85` the restriction is exact: one side is always a rendering in `[0-9a-f]`, and no non-ASCII character upper- or lower-cases to a character of `[0-9a-fA-F]` under Java's `Character` mappings, so a non-ASCII etag character never matches there, as in the model.

=== FILE: digest_hex.dfy ===
/**
 * The hex rendering of an MD5 digest built by `calcMd5`: every digest byte is
 * formatted with `%02x` and appended, in order, to one string.
 */
module DigestHex {
  import opened Wrappers
  import opened JavaText

  /** A Java `byte`: signed, eight bits. */
  newtype int8 = x: int | -128 <= x < 128

  /** What `MessageDigest.getInstance("MD5").digest()` returns: sixteen bytes. */
  type Digest = d: seq<int8> | |d| == 16 witness seq(16, _ => 0)

  /** The value `%02x` prints for a byte: the formatter adds 2^8 to a negative byte. */
  function Unsigned(b: int8): (u: nat)
    ensures u < 256 && u == (b as int) % 256
  {
    if b < 0 then b as int + 256 else b as int
  }

  /** The byte whose unsigned value is `u`. */
  function Signed(u: nat): (b: int8)
    requires u < 256
    ensures Unsigned(b) == u
  {
    if u < 128 then u as int8 else (u as int - 256) as int8
  }

  predicate IsHexDigit(c: char) {
    '0' <= c <= '9' || 'a' <= c <= 'f'
  }

  /** The lower-case hexadecimal digit of a value below sixteen. */
  function HexDigit(v: nat): (c: char)
    requires v < 16
    ensures IsHexDigit(c)
  {
    if v < 10 then ('0' as int + v) as char else ('a' as int + v - 10) as char
  }

  /** The value of a lower-case hexadecimal digit, and None for any other character. */
  function DigitValue(c: char): (v: Option<nat>)
    ensures v.Some? <==> IsHexDigit(c)
    ensures v.Some? ==> v.value < 16 && HexDigit(v.value) == c
  {
    if '0' <= c <= '9' then Some(c as int - '0' as int)
    else if 'a' <= c <= 'f' then Some(c as int - 'a' as int + 10)
    else None
  }

  /** `String.format("%02x", b)`: two lower-case digits, high nibble first. */
  function ByteHex(b: int8): (s: string)
    ensures |s| == 2
    ensures DigitValue(s[0]) == Some(Unsigned(b) / 16)
    ensures DigitValue(s[1]) == Some(Unsigned(b) % 16)
  {
    [HexDigit(Unsigned(b) / 16), HexDigit(Unsigned(b) % 16)]
  }

  /**
   * The string `calcMd5` returns for a digest: every byte's two digits, in order.
   * It is twice as long as the digest and holds only lower-case hex digits.
   */
  function Hex(d: seq<int8>): (s: string)
    ensures |s| == 2 * |d|
    ensures forall j :: 0 <= j < |s| ==> IsHexDigit(s[j])
    decreases |d|
  {
    if d == [] then "" else Hex(d[..|d| - 1]) + ByteHex(d[|d| - 1])
  }

  /** The loop of `calcMd5` over the digest bytes, appending to a string builder. */
  method FormatDigest(digest: seq<int8>) returns (s: string)
    ensures s == Hex(digest)
  {
    s := "";
    for i := 0 to |digest|
      invariant s == Hex(digest[..i])
    {
      assert digest[..i + 1][..i] == digest[..i];
      s := s + ByteHex(digest[i]);
    }
    assert digest[..|digest|] == digest;
  }

  /** Byte `i` of the digest is rendered at positions `2i` and `2i + 1`. */
  lemma {:induction false} HexAt(d: seq<int8>, i: nat)
    requires i < |d|
    ensures Hex(d)[2 * i] == HexDigit(Unsigned(d[i]) / 16)
    ensures Hex(d)[2 * i + 1] == HexDigit(Unsigned(d[i]) % 16)
    decreases |d|
  {
    var init := d[..|d| - 1];
    assert Hex(d) == Hex(init) + ByteHex(d[|d| - 1]);
    if i < |d| - 1 {
      HexAt(init, i);
    }
  }

  /** Reads a string of lower-case hex digit pairs back into bytes; None if it is not one. */
  function Unhex(s: string): (r: Option<seq<int8>>)
    decreases |s|
  {
    if s == [] then Some([])
    else if |s| < 2 then None
    else
      match (Unhex(s[..|s| - 2]), DigitValue(s[|s| - 2]), DigitValue(s[|s| - 1]))
      case (Some(d), Some(hi), Some(lo)) => Some(d + [Signed(hi * 16 + lo)])
      case _ => None
  }

  /** Decoding the hex rendering gives back the digest. */
  lemma {:induction false} UnhexHex(d: seq<int8>)
    ensures Unhex(Hex(d)) == Some(d)
    decreases |d|
  {
    if d != [] {
      var init, last := d[..|d| - 1], d[|d| - 1];
      var s := Hex(d);
      assert s == Hex(init) + ByteHex(last);
      assert s[..|s| - 2] == Hex(init);
      UnhexHex(init);
      var u := Unsigned(last);
      assert Signed(u / 16 * 16 + u % 16) == last;
      assert init + [last] == d;
    }
  }

  /** Whatever Unhex accepts is the hex rendering of what it returns. */
  lemma {:induction false} HexUnhex(s: string, d: seq<int8>)
    requires Unhex(s) == Some(d)
    ensures Hex(d) == s
    decreases |s|
  {
    if s != [] {
      var front := s[..|s| - 2];
      var hi := DigitValue(s[|s| - 2]).value;
      var lo := DigitValue(s[|s| - 1]).value;
      var init := Unhex(front).value;
      assert d == init + [Signed(hi * 16 + lo)];
      HexUnhex(front, init);
      assert d[..|d| - 1] == init;
      assert ByteHex(d[|d| - 1]) == [s[|s| - 2], s[|s| - 1]];
      assert s == front + [s[|s| - 2], s[|s| - 1]];
    }
  }

  /** Distinct digests never share a hex rendering. */
  lemma HexInjective(a: seq<int8>, b: seq<int8>)
    requires Hex(a) == Hex(b)
    ensures a == b
  {
    UnhexHex(a);
    UnhexHex(b);
  }

  /**
   * Comparing a digest's rendering with an etag ignoring case is comparing it
   * with the etag in lower case.
   */
  lemma HexEqualsIgnoreCaseIff(d: seq<int8>, etag: string)
    ensures EqualsIgnoreCase(Hex(d), etag) <==> LowerCase(etag) == Hex(d)
  {
  }
}

=== FILE: java_text.dfy ===
/**
 * Java's `String.equalsIgnoreCase`, with the case mapping of `Character.toUpperCase`
 * and `Character.toLowerCase` restricted to the ASCII letters.
 */
module JavaText {

  predicate IsLowerAscii(c: char) { 'a' <= c <= 'z' }

  predicate IsUpperAscii(c: char) { 'A' <= c <= 'Z' }

  function ToUpper(c: char): char {
    if IsLowerAscii(c) then (c as int - 32) as char else c
  }

  function ToLower(c: char): char {
    if IsUpperAscii(c) then (c as int + 32) as char else c
  }

  function LowerCase(s: string): string {
    seq(|s|, i requires 0 <= i < |s| => ToLower(s[i]))
  }

  function UpperCase(s: string): string {
    seq(|s|, i requires 0 <= i < |s| => ToUpper(s[i]))
  }

  /**
   * One position of `regionMatches(true, ...)`: the characters are equal, or equal
   * once upper-cased, or equal once upper-cased and then lower-cased.
   */
  predicate CharsEqualIgnoreCase(a: char, b: char) {
    a == b || ToUpper(a) == ToUpper(b) || ToLower(ToUpper(a)) == ToLower(ToUpper(b))
  }

  /** `s.equalsIgnoreCase(t)`: same length, and every position matches ignoring case. */
  predicate EqualsIgnoreCase(s: string, t: string)
    ensures EqualsIgnoreCase(s, t) <==>
      |s| == |t| && forall i :: 0 <= i < |s| ==> ToLower(s[i]) == ToLower(t[i])
  {
    |s| == |t| && forall i :: 0 <= i < |s| ==> CharsEqualIgnoreCase(s[i], t[i])
  }

  /** Two characters match ignoring case exactly when their lower-case forms are equal. */
  lemma CharsEqualIgnoreCaseIff(a: char, b: char)
    ensures CharsEqualIgnoreCase(a, b) <==> ToLower(a) == ToLower(b)
  {
  }

  /** Two strings are equal ignoring case exactly when their lower-case forms are equal. */
  lemma EqualsIgnoreCaseIff(s: string, t: string)
    ensures EqualsIgnoreCase(s, t) <==> LowerCase(s) == LowerCase(t)
  {
    if EqualsIgnoreCase(s, t) {
      forall i | 0 <= i < |s|
        ensures LowerCase(s)[i] == LowerCase(t)[i]
      {
        CharsEqualIgnoreCaseIff(s[i], t[i]);
      }
    }
    if LowerCase(s) == LowerCase(t) {
      forall i | 0 <= i < |s|
        ensures CharsEqualIgnoreCase(s[i], t[i])
      {
        assert LowerCase(s)[i] == LowerCase(t)[i];
        CharsEqualIgnoreCaseIff(s[i], t[i]);
      }
    }
  }

  /** Ignoring case is an equivalence: reflexive, symmetric and transitive. */
  lemma EqualsIgnoreCaseIsEquivalence(s: string, t: string, u: string)
    ensures EqualsIgnoreCase(s, s)
    ensures EqualsIgnoreCase(s, t) ==> EqualsIgnoreCase(t, s)
    ensures EqualsIgnoreCase(s, t) && EqualsIgnoreCase(t, u) ==> EqualsIgnoreCase(s, u)
  {
  }

  /** A string matches its own upper-case form. */
  lemma UpperCaseEqualsIgnoreCase(s: string)
    ensures EqualsIgnoreCase(s, UpperCase(s))
  {
  }
}

=== FILE: object_keys.dfy ===
/** The object key a manifest path is downloaded from: `"files/" + relPath.replace("\\", "/")`. */
module ObjectKeys {

  const FilesPrefix: string := "files/"

  predicate IsSeparator(c: char) { c == '/' || c == '\\' }

  /** `p.replace("\\", "/")`: every backslash becomes a forward slash, nothing else moves. */
  function Slashed(p: string): (r: string)
    ensures |r| == |p|
    ensures forall i :: 0 <= i < |p| ==> r[i] == (if p[i] == '\\' then '/' else p[i])
  {
    if p == [] then [] else [if p[0] == '\\' then '/' else p[0]] + Slashed(p[1..])
  }

  /** The bucket key for a manifest path: the prefix, then the path with forward slashes. */
  function ObjectKey(relPath: string): (key: string)
    ensures |key| == |FilesPrefix| + |relPath|
    ensures key[..|FilesPrefix|] == FilesPrefix
    ensures '\\' !in key
  {
    FilesPrefix + Slashed(relPath)
  }

  /** Two paths that differ at most in which separator stands at each position. */
  predicate SameUpToSeparators(p: string, q: string) {
    |p| == |q| && forall i :: 0 <= i < |p| ==> p[i] == q[i] || (IsSeparator(p[i]) && IsSeparator(q[i]))
  }

  /** Two paths share an object key exactly when they differ only in separator style. */
  lemma SameKeyIff(p: string, q: string)
    ensures ObjectKey(p) == ObjectKey(q) <==> SameUpToSeparators(p, q)
  {
  }

  /** Normalising twice is normalising once. */
  lemma SlashedIdempotent(p: string)
    ensures Slashed(Slashed(p)) == Slashed(p)
  {
  }

  /** A path with no backslash is used as it stands. */
  lemma KeyOfSlashOnlyPath(p: string)
    requires '\\' !in p
    ensures ObjectKey(p) == FilesPrefix + p
  {
  }
}

=== FILE: reconcile.dfy ===
/**
 * The reconcile loop of `main`: for each manifest entry, keep the local file when it
 * has the expected size and MD5, otherwise fetch the entry's object over it; the first
 * failed fetch ends the loop.
 */
module Reconciler {
  import opened Wrappers
  import opened JavaText
  import opened DigestHex
  import opened ObjectKeys

  type Bytes = seq<int8>

  /** The download directory: each relative path as written in the manifest, with its contents. */
  type Dir = map<string, Bytes>

  /** The bucket: each object key whose presigned GET succeeds, with the body it returns. */
  type Store = map<string, Bytes>

  /** The MD5 digest of a file's contents. */
  type Md5 = Bytes -> Digest

  /** One element of the manifest's `files` array. */
  datatype Entry = Entry(path: string, size: int, etag: string)

  /**
   * What is recorded for an entry, in the order the entries are handled: kept as it
   * is, or fetched from the object `key` (standing for the URL minted for that key).
   * The printed text itself, with the local file's path, is not modelled.
   */
  datatype Line = AlreadyPresent(path: string) | Downloading(path: string, key: string)

  /** The directory after the loop, the lines printed, and the key whose fetch failed, if any. */
  datatype Report = Report(dir: Dir, log: seq<Line>, failed: Option<string>)

  /** Contents that have the entry's size and whose MD5 in hex equals its etag ignoring case. */
  predicate Describes(e: Entry, contents: Bytes, md5: Md5) {
    |contents| == e.size && EqualsIgnoreCase(Hex(md5(contents)), e.etag)
  }

  /** The condition under which `needDownload` becomes false. */
  predicate UpToDate(e: Entry, dir: Dir, md5: Md5)
    ensures UpToDate(e, dir, md5) ==> e.path in dir && |dir[e.path]| == e.size && |e.etag| == 32
  {
    e.path in dir && Describes(e, dir[e.path], md5)
  }

  /** The remaining entries, processed against `dir`, the loop's effect as a function. */
  function Reconciled(entries: seq<Entry>, dir: Dir, remote: Store, md5: Md5): (r: Report)
    ensures 0 < |entries| ==> 0 < |r.log| <= |entries|
    ensures r.failed.Some? ==> r.failed.value !in remote
    ensures r.failed.None? ==> |r.log| == |entries|
    decreases |entries|
  {
    if entries == [] then Report(dir, [], None)
    else
      var e := entries[0];
      if UpToDate(e, dir, md5) then
        Prefixed([AlreadyPresent(e.path)], Reconciled(entries[1..], dir, remote, md5))
      else
        var key := ObjectKey(e.path);
        if key !in remote then Report(dir, [Downloading(e.path, key)], Some(key))
        else Prefixed([Downloading(e.path, key)], Reconciled(entries[1..], dir[e.path := remote[key]], remote, md5))
  }

  /** A report with `lines` printed before its own. */
  function Prefixed(lines: seq<Line>, r: Report): Report {
    r.(log := lines + r.log)
  }

  /**
   * The check of one entry against the local file. The file is hashed whenever it
   * exists, before its size is compared with the expected one.
   */
  method CheckLocal(e: Entry, dir: Dir, md5: Md5) returns (needDownload: bool)
    ensures needDownload <==> !UpToDate(e, dir, md5)
  {
    needDownload := true;
    if e.path in dir {
      var localSize := |dir[e.path]|;
      var localMd5 := FormatDigest(md5(dir[e.path]));
      if localSize == e.size && EqualsIgnoreCase(localMd5, e.etag) {
        needDownload := false;
      }
    }
  }

  /** The loop over the manifest entries; a fetch that fails ends the loop. */
  method Reconcile(entries: seq<Entry>, local: Dir, remote: Store, md5: Md5) returns (r: Report)
    ensures r == Reconciled(entries, local, remote, md5)
  {
    ghost var target := Reconciled(entries, local, remote, md5);
    var dir := local;
    var log: seq<Line> := [];
    var i := 0;
    assert entries[i..] == entries;
    while i < |entries|
      invariant 0 <= i <= |entries|
      invariant target == Prefixed(log, Reconciled(entries[i..], dir, remote, md5))
    {
      var e := entries[i];
      var needDownload := CheckLocal(e, dir, md5);
      if !needDownload {
        KeptStep(entries, i, dir, remote, md5);
        PrefixedAppend(log, AlreadyPresent(e.path), Reconciled(entries[i + 1..], dir, remote, md5));
        log := log + [AlreadyPresent(e.path)];
      } else {
        var key := ObjectKey(e.path);
        if key !in remote {
          FailedStep(entries, i, dir, remote, md5);
          log := log + [Downloading(e.path, key)];
          return Report(dir, log, Some(key));
        }
        FetchedStep(entries, i, dir, remote, md5);
        PrefixedAppend(log, Downloading(e.path, key), Reconciled(entries[i + 1..], dir[e.path := remote[key]], remote, md5));
        log := log + [Downloading(e.path, key)];
        dir := dir[e.path := remote[key]];
      }
      i := i + 1;
    }
    return Report(dir, log, None);
  }

  lemma PrefixedAppend(log: seq<Line>, line: Line, r: Report)
    ensures Prefixed(log, Prefixed([line], r)) == Prefixed(log + [line], r)
  {
  }

  /** An up-to-date entry is kept: one line, no fetch, and the rest runs on the same directory. */
  lemma KeptStep(entries: seq<Entry>, i: nat, dir: Dir, remote: Store, md5: Md5)
    requires i < |entries| && UpToDate(entries[i], dir, md5)
    ensures Reconciled(entries[i..], dir, remote, md5)
         == Prefixed([AlreadyPresent(entries[i].path)], Reconciled(entries[i + 1..], dir, remote, md5))
  {
  }

  /** A stale entry whose object is served is overwritten with it, and the rest runs on the result. */
  lemma FetchedStep(entries: seq<Entry>, i: nat, dir: Dir, remote: Store, md5: Md5)
    requires i < |entries| && !UpToDate(entries[i], dir, md5) && ObjectKey(entries[i].path) in remote
    ensures var p, key := entries[i].path, ObjectKey(entries[i].path);
      Reconciled(entries[i..], dir, remote, md5)
        == Prefixed([Downloading(p, key)], Reconciled(entries[i + 1..], dir[p := remote[key]], remote, md5))
  {
  }

  /** A stale entry whose object is not served ends the loop with the directory as it was. */
  lemma FailedStep(entries: seq<Entry>, i: nat, dir: Dir, remote: Store, md5: Md5)
    requires i < |entries| && !UpToDate(entries[i], dir, md5) && ObjectKey(entries[i].path) !in remote
    ensures var p, key := entries[i].path, ObjectKey(entries[i].path);
      Reconciled(entries[i..], dir, remote, md5) == Report(dir, [Downloading(p, key)], Some(key))
  {
  }

  /**
   * An entry is kept exactly when its file exists, has the expected size, and the
   * etag in lower case is the hex MD5 of its contents.
   */
  lemma UpToDateIff(e: Entry, dir: Dir, md5: Md5)
    ensures UpToDate(e, dir, md5) <==>
      e.path in dir && |dir[e.path]| == e.size && LowerCase(e.etag) == Hex(md5(dir[e.path]))
  {
  }

  /** An etag written in upper case still matches the lower-case digest computed locally. */
  lemma UpperCaseEtagIsUpToDate(e: Entry, dir: Dir, md5: Md5)
    requires e.path in dir && |dir[e.path]| == e.size
    requires e.etag == UpperCase(Hex(md5(dir[e.path])))
    ensures UpToDate(e, dir, md5)
  {
  }

  /**
   * An entry whose file is missing when the loop reaches it is fetched, whatever its
   * size and etag say and whatever entries follow it.
   */
  lemma MissingFileIsFetched(entries: seq<Entry>, i: nat, dir: Dir, remote: Store, md5: Md5)
    requires i < |entries| && entries[i].path !in dir
    ensures var r := Reconciled(entries[i..], dir, remote, md5);
      0 < |r.log| && r.log[0] == Downloading(entries[i].path, ObjectKey(entries[i].path))
  {
  }

  /**
   * The lines follow the manifest: one per processed entry, in order, the key of a
   * fetch being the entry's object key. The loop either processes every entry or
   * stops at the first entry whose object the bucket does not serve.
   */
  lemma {:induction false} LogFollowsManifest(entries: seq<Entry>, dir: Dir, remote: Store, md5: Md5)
    ensures var r := Reconciled(entries, dir, remote, md5);
      && |r.log| <= |entries|
      && (r.failed.None? ==> |r.log| == |entries|)
      && (r.failed.Some? ==> |r.log| >= 1)
      && (forall j :: 0 <= j < |r.log| ==> r.log[j].path == entries[j].path)
      && (forall j :: 0 <= j < |r.log| && r.log[j].Downloading? ==>
            r.log[j].key == ObjectKey(entries[j].path))
      && (forall j :: 0 <= j < |r.log| && (j < |r.log| - 1 || r.failed.None?) && r.log[j].Downloading? ==>
            r.log[j].key in remote)
      && (r.failed.Some? ==>
            && r.failed.value !in remote
            && r.log[|r.log| - 1] == Downloading(entries[|r.log| - 1].path, r.failed.value))
  {
    var r := Reconciled(entries, dir, remote, md5);
    forall j | 0 <= j < |r.log|
      ensures r.log[j].path == entries[j].path
      ensures r.log[j].Downloading? ==> r.log[j].key == ObjectKey(entries[j].path)
      ensures (j < |r.log| - 1 || r.failed.None?) && r.log[j].Downloading? ==> r.log[j].key in remote
      ensures r.failed.Some? && j == |r.log| - 1 ==> r.log[j] == Downloading(entries[j].path, r.failed.value)
    {
      LogLine(entries, dir, remote, md5, j);
    }
  }

  /** The `j`th line of the report, for the `j`th entry. */
  lemma {:induction false} LogLine(entries: seq<Entry>, dir: Dir, remote: Store, md5: Md5, j: nat)
    requires j < |Reconciled(entries, dir, remote, md5).log|
    ensures var r := Reconciled(entries, dir, remote, md5);
      && r.log[j].path == entries[j].path
      && (r.log[j].Downloading? ==> r.log[j].key == ObjectKey(entries[j].path))
      && ((j < |r.log| - 1 || r.failed.None?) && r.log[j].Downloading? ==> r.log[j].key in remote)
      && (r.failed.Some? && j == |r.log| - 1 ==> r.log[j] == Downloading(entries[j].path, r.failed.value))
    decreases j
  {
    var e, key := entries[0], ObjectKey(entries[0].path);
    var r := Reconciled(entries, dir, remote, md5);
    if j > 0 && UpToDate(e, dir, md5) {
      var rest := Reconciled(entries[1..], dir, remote, md5);
      assert r.log[j] == rest.log[j - 1] && |r.log| == |rest.log| + 1 && r.failed == rest.failed;
      LogLine(entries[1..], dir, remote, md5, j - 1);
      assert entries[j] == entries[1..][j - 1];
    } else if j > 0 {
      assert key in remote;
      var rest := Reconciled(entries[1..], dir[e.path := remote[key]], remote, md5);
      assert r.log[j] == rest.log[j - 1] && |r.log| == |rest.log| + 1 && r.failed == rest.failed;
      LogLine(entries[1..], dir[e.path := remote[key]], remote, md5, j - 1);
      assert entries[j] == entries[1..][j - 1];
    }
  }

  /** The paths the loop overwrote: those of the fetch lines whose object the bucket served. */
  ghost function Written(r: Report, remote: Store): set<string> {
    set l | l in r.log && l.Downloading? && l.key in remote :: l.path
  }

  /**
   * The directory after the loop is the directory before it, with every written path
   * holding its object from the bucket; every other file is left as it was. A fetched
   * file is not checked again against the entry's size or etag.
   */
  lemma {:induction false} ReconciledEffect(entries: seq<Entry>, dir: Dir, remote: Store, md5: Md5)
    ensures var r, w := Reconciled(entries, dir, remote, md5), Written(Reconciled(entries, dir, remote, md5), remote);
      && (forall p :: p in r.dir <==> p in dir || p in w)
      && (forall p :: p in w ==> ObjectKey(p) in remote && r.dir[p] == remote[ObjectKey(p)])
      && (forall p :: p in dir && p !in w ==> r.dir[p] == dir[p])
    decreases |entries|
  {
    if entries != [] {
      var e := entries[0];
      var key := ObjectKey(e.path);
      var r := Reconciled(entries, dir, remote, md5);
      if UpToDate(e, dir, md5) {
        var rest := Reconciled(entries[1..], dir, remote, md5);
        ReconciledEffect(entries[1..], dir, remote, md5);
        assert Written(r, remote) == Written(rest, remote);
      } else if key in remote {
        var rest := Reconciled(entries[1..], dir[e.path := remote[key]], remote, md5);
        ReconciledEffect(entries[1..], dir[e.path := remote[key]], remote, md5);
        assert Written(r, remote) == {e.path} + Written(rest, remote);
      } else {
        assert Written(r, remote) == {};
      }
    }
  }

  /** The bucket serves the entry's object, and that object has the size and etag it lists. */
  predicate Published(e: Entry, remote: Store, md5: Md5) {
    ObjectKey(e.path) in remote && Describes(e, remote[ObjectKey(e.path)], md5)
  }

  /** When every entry is already up to date, the loop keeps them all and changes nothing. */
  lemma {:induction false} AllUpToDateKeepsAll(entries: seq<Entry>, dir: Dir, remote: Store, md5: Md5)
    requires forall e :: e in entries ==> UpToDate(e, dir, md5)
    ensures var r := Reconciled(entries, dir, remote, md5);
      && r.dir == dir
      && r.failed.None?
      && |r.log| == |entries|
      && forall j :: 0 <= j < |entries| ==> r.log[j] == AlreadyPresent(entries[j].path)
    decreases |entries|
  {
    if entries != [] {
      assert entries[0] in entries;
      assert forall e :: e in entries[1..] ==> e in entries;
      AllUpToDateKeepsAll(entries[1..], dir, remote, md5);
    }
  }

  /** An up-to-date published entry stays up to date whatever later entries do. */
  lemma {:induction false} UpToDatePersists(e: Entry, entries: seq<Entry>, dir: Dir, remote: Store, md5: Md5)
    requires Published(e, remote, md5) && UpToDate(e, dir, md5)
    ensures UpToDate(e, Reconciled(entries, dir, remote, md5).dir, md5)
    decreases |entries|
  {
    if entries != [] {
      var f := entries[0];
      var key := ObjectKey(f.path);
      if UpToDate(f, dir, md5) {
        UpToDatePersists(e, entries[1..], dir, remote, md5);
      } else if key in remote {
        UpToDatePersists(e, entries[1..], dir[f.path := remote[key]], remote, md5);
      }
    }
  }

  /** When the bucket publishes what the manifest lists, the loop completes and leaves every entry up to date. */
  lemma {:induction false} PublishedManifestSyncs(entries: seq<Entry>, dir: Dir, remote: Store, md5: Md5)
    requires forall e :: e in entries ==> Published(e, remote, md5)
    ensures var r := Reconciled(entries, dir, remote, md5);
      r.failed.None? && forall e :: e in entries ==> UpToDate(e, r.dir, md5)
    decreases |entries|
  {
    if entries != [] {
      var e := entries[0];
      var key := ObjectKey(e.path);
      assert e in entries;
      assert forall f :: f in entries[1..] ==> f in entries;
      var next := if UpToDate(e, dir, md5) then dir else dir[e.path := remote[key]];
      assert UpToDate(e, next, md5);
      PublishedManifestSyncs(entries[1..], next, remote, md5);
      UpToDatePersists(e, entries[1..], next, remote, md5);
    }
  }

  /**
   * Running the loop a second time, against what the first run left and the same
   * published bucket, keeps every entry and fetches nothing.
   */
  lemma RerunKeepsEverything(entries: seq<Entry>, dir: Dir, remote: Store, md5: Md5)
    requires forall e :: e in entries ==> Published(e, remote, md5)
    ensures var first := Reconciled(entries, dir, remote, md5);
      var second := Reconciled(entries, first.dir, remote, md5);
      && first.failed.None?
      && second == Report(first.dir, second.log, None)
      && |second.log| == |entries|
      && forall j :: 0 <= j < |entries| ==> second.log[j] == AlreadyPresent(entries[j].path)
  {
    var first := Reconciled(entries, dir, remote, md5);
    PublishedManifestSyncs(entries, dir, remote, md5);
    AllUpToDateKeepsAll(entries, first.dir, remote, md5);
  }

  /** An empty `files` array runs no iteration and leaves the directory as it was. */
  lemma EmptyManifestChangesNothing(dir: Dir, remote: Store, md5: Md5)
    ensures Reconciled([], dir, remote, md5) == Report(dir, [], None)
  {
  }
}

=== FILE: settings.dfy ===
/**
 * `loadConfig`: reads `config.json`, or writes a template and stops when it is absent,
 * and refuses a configuration whose endpoint, keys or bucket are empty.
 */
module Settings {
  import opened Wrappers

  /** The parsed `config.json`: each key with its string value. */
  type ConfigDoc = map<string, string>

  datatype Config = Config(
    endpoint: string,
    accessKey: string,
    secretKey: string,
    bucket: string,
    region: string,
    downloadDir: string)

  datatype ConfigError =
    | ConfigMissing              // no config.json: the template was written instead
    | FieldMissing(key: string)  // a key the loader reads is absent from the document
    | RequiredValueEmpty         // endpoint, access_key, secret_key or bucket is ""

  /** The keys the loader reads, in the order it reads them. */
  const Keys: seq<string> := ["endpoint", "access_key", "secret_key", "bucket", "region", "download_dir"]

  /** The document written when `config.json` does not exist. */
  function Template(): (doc: ConfigDoc)
    ensures forall k :: k in Keys ==> k in doc && doc[k] != ""
  {
    map[
      "endpoint" := "http://127.0.0.1:9000",
      "access_key" := "YOUR_ACCESS_KEY",
      "secret_key" := "YOUR_SECRET_KEY",
      "bucket" := "modpack",
      "region" := "shanghai",
      "download_dir" := "./modpack"]
  }

  /** The index of the first of `keys` that `doc` lacks, or `|keys|` if it has them all. */
  function FirstAbsent(doc: ConfigDoc, keys: seq<string>): (i: nat)
    ensures i <= |keys|
    ensures forall j :: 0 <= j < i ==> keys[j] in doc
    ensures i < |keys| ==> keys[i] !in doc
    decreases |keys|
  {
    if keys == [] then 0
    else if keys[0] !in doc then 0
    else 1 + FirstAbsent(doc, keys[1..])
  }

  /** The document has every key the loader reads. */
  predicate HasAllKeys(doc: ConfigDoc) {
    && "endpoint" in doc && "access_key" in doc && "secret_key" in doc
    && "bucket" in doc && "region" in doc && "download_dir" in doc
  }

  /** The six keys named in `HasAllKeys` are exactly those the loader reads. */
  lemma HasAllKeysIff(doc: ConfigDoc)
    ensures HasAllKeys(doc) <==> forall k :: k in Keys ==> k in doc
  {
  }

  /** The document has the four required keys, none of them empty. */
  predicate FillsRequired(doc: ConfigDoc) {
    && "endpoint" in doc && doc["endpoint"] != ""
    && "access_key" in doc && doc["access_key"] != ""
    && "secret_key" in doc && doc["secret_key"] != ""
    && "bucket" in doc && doc["bucket"] != ""
  }

  predicate HasRequiredValues(c: Config) {
    c.endpoint != "" && c.accessKey != "" && c.secretKey != "" && c.bucket != ""
  }

  /**
   * The outcome of `loadConfig` on the state of `config.json` (None: the file does not
   * exist). Every field is taken from the document unchanged, without defaults; the
   * first key the loader reads that is absent stops it; otherwise the configuration
   * is refused exactly when one of the four required values is empty.
   */
  function LoadConfig(file: Option<ConfigDoc>): (r: Result<Config, ConfigError>)
    ensures file.None? ==> r == Failure(ConfigMissing)
    ensures r.Success? <==> file.Some? && HasAllKeys(file.value) && FillsRequired(file.value)
    ensures r.Success? ==>
      && r.value.endpoint == file.value["endpoint"]
      && r.value.accessKey == file.value["access_key"]
      && r.value.secretKey == file.value["secret_key"]
      && r.value.bucket == file.value["bucket"]
      && r.value.region == file.value["region"]
      && r.value.downloadDir == file.value["download_dir"]
    ensures r.Failure? && r.error.FieldMissing? ==>
      file.Some? && r.error.key in Keys && r.error.key !in file.value
    ensures r == Failure(RequiredValueEmpty) ==> file.Some? && HasAllKeys(file.value)
  {
    match file
    case None => Failure(ConfigMissing)
    case Some(doc) =>
      var i := FirstAbsent(doc, Keys);
      if i < |Keys| then Failure(FieldMissing(Keys[i]))
      else
        assert forall j :: 0 <= j < |Keys| ==> Keys[j] in doc;
        var c := Config(doc["endpoint"], doc["access_key"], doc["secret_key"],
                        doc["bucket"], doc["region"], doc["download_dir"]);
        if HasRequiredValues(c) then Success(c) else Failure(RequiredValueEmpty)
  }

  /** `config.json` after loading: the template if it was absent, otherwise as it was. */
  function ConfigFileAfterLoad(file: Option<ConfigDoc>): (after: ConfigDoc)
    ensures file.Some? ==> after == file.value
    ensures file.None? ==> forall k :: k in Keys ==> k in after && after[k] != ""
  {
    if file.None? then Template() else file.value
  }

  /** The region and the download directory may be empty. */
  lemma OptionalValuesMayBeEmpty(doc: ConfigDoc)
    requires LoadConfig(Some(doc)).Success?
    ensures LoadConfig(Some(doc["region" := ""]["download_dir" := ""])).Success?
  {
  }

  /** After a first run has written the template, a second run accepts it unchanged. */
  lemma TemplateIsAccepted()
    ensures LoadConfig(Some(ConfigFileAfterLoad(None))).Success?
  {
  }
}

=== FILE: updater.dfy ===
/**
 * `main`: load the configuration, obtain the manifest, then reconcile the download
 * directory with the manifest's `files`. Every failure ends the run.
 */
module Updater {
  import opened Wrappers
  import opened Settings
  import opened Reconciler

  /** The parsed `manifest.json`; `files` is None when the document has no such key. */
  datatype Manifest = Manifest(files: Option<seq<Entry>>)

  datatype RunFailure =
    | BadConfig(error: ConfigError)  // loadConfig threw
    | ManifestUnavailable            // the manifest could not be fetched or parsed
    | DownloadFailed(key: string)    // the GET of this object did not succeed

  datatype Outcome =
    | Updated                        // every entry processed: "update complete"
    | NoFiles                        // the manifest has no `files` key
    | Aborted(failure: RunFailure)      // an exception reached the handler in main

  /**
   * One run. `configFile` is `config.json` (None: absent); `manifest` is the parsed
   * manifest, None when fetching or parsing it failed. Returns how the run ended, the
   * lines printed for entries, the download directory and `config.json` afterwards.
   */
  method Run(configFile: Option<ConfigDoc>, manifest: Option<Manifest>, local: Dir, remote: Store, md5: Md5)
    returns (outcome: Outcome, log: seq<Line>, dir: Dir, configAfter: ConfigDoc)
    ensures configAfter == (if configFile.None? then Template() else configFile.value)
    ensures outcome.Aborted? && !outcome.failure.DownloadFailed? ==> dir == local && log == []
    ensures LoadConfig(configFile).Failure? ==> outcome == Aborted(BadConfig(LoadConfig(configFile).error))
    ensures LoadConfig(configFile).Success? && manifest.None? ==> outcome == Aborted(ManifestUnavailable)
    ensures LoadConfig(configFile).Success? && manifest == Some(Manifest(None)) ==>
      outcome == NoFiles && dir == local && log == []
    ensures LoadConfig(configFile).Success? && manifest.Some? && manifest.value.files.Some? ==>
      var r := Reconciled(manifest.value.files.value, local, remote, md5);
      && dir == r.dir
      && log == r.log
      && outcome == (if r.failed.None? then Updated else Aborted(DownloadFailed(r.failed.value)))
  {
    configAfter := ConfigFileAfterLoad(configFile);
    dir, log := local, [];
    var config := LoadConfig(configFile);
    if config.Failure? {
      return Aborted(BadConfig(config.error)), log, dir, configAfter;
    }
    if manifest.None? {
      return Aborted(ManifestUnavailable), log, dir, configAfter;
    }
    if manifest.value.files.None? {
      return NoFiles, log, dir, configAfter;
    }
    var r := Reconcile(manifest.value.files.value, local, remote, md5);
    dir, log := r.dir, r.log;
    outcome := if r.failed.None? then Updated else Aborted(DownloadFailed(r.failed.value));
  }
}

=== FILE: wrappers.dfy ===
/** Option and Result, for values that may be absent and for operations that may fail. */
module Wrappers {

  datatype Option<+T> = None | Some(value: T)

  datatype Result<+T, +E> = Success(value: T) | Failure(error: E)
}
